=== FILE: README.md ===
# Astra AI chat bookkeeping in Dafny

This project models the part of the Astra AI chat web application that is real
logic rather than wiring. The application is a Next.js/React client.

- **Message store.** Each chat window (and the guest page) keeps a list of
  `{role, content, isLoading?}` messages. A send appends the user message and a
  loading bot placeholder. The reply then replaces the last element. History
  fetched from the server is converted from `{userPrompt?, botResponse?}`
  entries and merged in, and the merge drops entries whose `(role, content)`
  pair is already present.
- **Reply text.** The completion proxy's answer becomes the bot reply:
  `choices?.[0]?.message?.content`, else "No response", else a fixed failure
  text when the request throws.
- **Typing reveal.** After resolution, an interval callback publishes growing
  prefixes of the reply for the reply's slot. It then clears the typing state
  and writes the reply into the slot.
- **First-save title rule.** The chat window sends a title (the first 30 code
  units of the prompt) and registers the chat in the collection only while its
  "chat has been created" flag is false. The flag becomes true once a save
  request goes through; a rejected user lookup or save request leaves it
  false, so the next save carries a title again.
- **Chat context.** A registry of chats, each with its own messages.
  `ensureChatExists` inserts a chat by id without duplicates. `sendMessage`
  updates only the chats whose id matches.
- **Password policy.** The create-account page has five rules (length ≥ 8,
  upper case, lower case, digit, special character). Its submit button is
  enabled only when all five hold.

JavaScript strings are modelled as UTF-16 code-unit sequences (`JsText`),
because `length`, `slice`, `trim`, `===` and regular expressions without the
`u` flag all work on code units. Each React state updater is a pure function on
immutable sequences. Timers are explicit tick sequences. Network results are
inputs.

Modules: `Wrappers` (Option), `JsText` (code units, `trim`, `slice`),
`Messages`, `Completion`, `WireFormat`, `MessageStore`, `TypingReveal`,
`ChatWindow`, `ChatRegistry`, `GuestChat`, `PasswordPolicy`.

Edge cases of the code, as modelled:
- Resolution on an empty list yields a one-element list holding the reply.
- The reveal writes the reply into slot `prev.length - 1`. When the list was
  empty that slot is `-1`, and the write sets a property that is not an
  element.
- A second reveal does not cancel the first: both final writes land.
  `TypingReveal.OverlappingRevealsPickSurvivor` models those two final writes
  only, not the interleaving of the two reveals' ticks.

## Model

| member | source | states |
|---|---|---|
| JsText.BlankIffAllWhitespace | src/components/chatWindow.tsx:171 | `!input.trim()` holds exactly when every code unit of the input is ECMAScript whitespace or a line terminator, the empty string included |
| Completion.BotResponse | src/components/chatWindow.tsx:183-196 | the reply is never empty: the first choice's content when it is a non-empty string, "No response" when it or any link of the chain is missing or empty, the caller's failure text when the request threw |
| Completion.FirstContent | src/components/chatWindow.tsx:191 | `data.choices?.[0]?.message?.content` is defined iff every link of the chain is present, and then it is the first choice's content |
| Completion.FailureText | src/components/guest/Guest.tsx:48 | the failure text is non-empty; the guest page's is its warning text and the chat window's and context's is "Error: failed to fetch response" |
| WireFormat.EntryMessages | src/components/chatWindow.tsx:116-123 | one entry contributes one message per truthy field: the user message first when `userPrompt` is a non-empty string, the bot message last when `botResponse` is |
| WireFormat.ToMessagesSnoc | src/components/chatWindow.tsx:115-124 | appending an entry to the history appends exactly that entry's messages |
| WireFormat.ToMessages | src/components/chatWindow.tsx:115-124 | at most two messages per history entry; no produced message is empty or loading |
| WireFormat.ToMessagesAppend | src/components/chatWindow.tsx:115-124 | conversion distributes over concatenation, so messages keep the order of their entries |
| WireFormat.ToMessagesOnlyCarried | src/components/chatWindow.tsx:117-122 | every produced message is carried by some entry, as a prompt for a user message or as a reply for a bot message |
| WireFormat.ToMessagesAllCarried | src/components/chatWindow.tsx:117-122 | every non-empty prompt or reply some entry carries is produced |
| WireFormat.ToMessagesMembership | src/components/chatWindow.tsx:115-124 | both directions: a message is produced iff it is non-empty, not loading and carried by some entry in the field of its role |
| MessageStore.MergeFrom | src/components/chatWindow.tsx:130-137 | the growing list stays a prefix; the pushed tail is a subsequence of the incoming messages; each pushed message's key is absent from everything before it, including earlier pushes; afterwards every incoming key is present |
| MessageStore.MergeRemote | src/components/chatWindow.tsx:126-139 | an empty converted list returns the previous list; otherwise the previous list is an exact prefix, the tail is an in-order subsequence of the converted list with keys new at their push, and every converted key is present |
| MessageStore.Fresh | src/components/chatWindow.tsx:130-137 | the filter of the incoming list, defined over it alone: `rest[j]` is kept iff its key is absent from the list before the merge followed by `rest[..j]`; the result is a subsequence of the incoming list |
| MessageStore.MergeFromIsFresh | src/components/chatWindow.tsx:130-137 | the push loop, started from a list with the same keys as `seen`, appends exactly `Fresh(seen, rest)`: a message is pushed iff its key is absent at its turn |
| MessageStore.MergeRemoteIsFresh | src/components/chatWindow.tsx:126-139 | the merge result is exactly the previous list followed by the incoming messages whose key is new at their turn, in incoming order |
| MessageStore.RepeatedHistoryKeepsFirst | src/components/chatWindow.tsx:126-139 | incoming `[x, y, x]` with distinct keys merged into an empty list gives `[x, y]`: the first occurrence survives |
| MessageStore.SubsequenceMembers | src/components/chatWindow.tsx:129-138 | every element of a subsequence is an element of the whole |
| MessageStore.MergeFromPresent | src/components/chatWindow.tsx:131-136 | pushing messages whose keys are all present already changes nothing |
| MessageStore.MergeRemoteIdempotent | src/components/chatWindow.tsx:126-139 | merging the same history a second time changes nothing |
| MessageStore.MergeRemoteNoDuplicates | src/components/chatWindow.tsx:130-137 | a list without duplicate keys stays without them, and every appended message has a key absent from the previous list |
| MessageStore.MergeRemoteTailFromFormatted | src/components/chatWindow.tsx:129-138 | every appended message comes from the converted list |
| MessageStore.AppendExchange | src/components/chatWindow.tsx:171-180 | whitespace-only input leaves the list unchanged; otherwise the list is kept as a prefix and grows by exactly `{user, input}` then `{bot, "", isLoading: true}` |
| MessageStore.DropLast | src/components/chatWindow.tsx:203 | `slice(0, -1)` is a prefix one shorter, and empty on an empty list |
| MessageStore.ResolveLast | src/components/chatWindow.tsx:200-205 | only the last element is replaced, by a bot reply without loading flag; on a non-empty list the length and all earlier elements are kept, and an empty list becomes the reply alone |
| MessageStore.ResolveLastOverrides | src/components/chatWindow.tsx:200-205 | resolving again overrides: the last reply wins, so resolving is idempotent |
| MessageStore.SendThenResolve | src/components/chatWindow.tsx:176-205 | an uninterrupted send followed by its resolution appends exactly the user message and the finished reply |
| MessageStore.TwoSends | src/components/chatWindow.tsx:176-180 | two sends before any reply build prompt, placeholder, prompt, placeholder |
| MessageStore.OverlappingSendsLoseReply | src/components/chatWindow.tsx:200-205 | as written, with two overlapping sends, after both resolutions the first reply is gone and the first placeholder stays loading |
| MessageStore.MergeBeforeReplyLosesMessage | src/components/chatWindow.tsx:200-205 | as written, messages merged between a send and its reply make the reply overwrite the last merged message, and the send's placeholder stays loading |
| MessageStore.ResolveAt | src/components/chatWindow.tsx:200-205 | corrected resolution: only the send's own placeholder slot becomes the reply and every other element is kept |
| MessageStore.ResolveAtAgreesWhenUninterrupted | src/components/chatWindow.tsx:200-205 | on an uninterrupted send the corrected resolution equals the code's |
| MessageStore.OverlappingSendsResolved | src/components/chatWindow.tsx:200-205 | with the corrected resolution two overlapping sends end as prompt, reply, prompt, reply, in either reply order |
| MessageStore.ResolveAtKeepsLaterMessages | src/components/chatWindow.tsx:200-205 | with the corrected resolution messages merged or sent after the send survive its resolution |
| TypingReveal.RevealSlot | src/components/chatWindow.tsx:201 | the revealed slot is an index of the list before resolution, or -1 exactly when that list was empty |
| TypingReveal.TickEffectAt | src/components/chatWindow.tsx:209-221 | tick i publishes iff i ≤ N, a prefix of the reply of length i at the reveal's slot; afterwards it finishes |
| TypingReveal.WriteAt | src/components/chatWindow.tsx:216-220 | the final write keeps the length; it sets the slot to the reply when the slot is non-negative and changes no other element |
| TypingReveal.RunReveal | src/components/chatWindow.tsx:208-222 | a reply of N code units yields exactly N published typing states, the k-th showing its first k units at the slot; then the typing state is cleared and the reply is written at the slot, other messages unchanged |
| TypingReveal.DisplayedText | src/components/chatWindow.tsx:323-340 | a row shows the typing text when the typing state targets it and that text is non-empty, otherwise its non-empty content; a loading row never shows an empty text |
| TypingReveal.RevealShowsPrefix | src/components/chatWindow.tsx:319-340 | while the k-th state is published the slot renders exactly the first k units and every other row renders as without a reveal |
| TypingReveal.RevealFinalWriteIsCosmetic | src/components/chatWindow.tsx:200-220 | on the list resolution produced, or that list extended by later messages, the final write stores what the slot already holds |
| TypingReveal.OverlappingRevealsPickSurvivor | src/components/chatWindow.tsx:200-220 | with two overlapping sends both resolutions and both reveals target slot 3; the reply written by the reveal that ends last is the one kept, and slot 1 stays loading either way |
| ChatWindow.SaveTitle | src/components/chatWindow.tsx:231 | a title is present iff the chat has not been created; it is the prefix of the input of length min(30, input length), that is `input.slice(0, 30)` |
| ChatWindow.SendResultAfter | src/components/chatWindow.tsx:228-249 | after the reply: the list gains prompt and reply; a save request with the title rule's title, prompt and reply exists iff the user lookup resolved; the flag ends true iff it was true or the save went through; registration happens iff the flag was false and the save went through |
| ChatWindow.Send | src/components/chatWindow.tsx:169-253 | whitespace-only input changes nothing and saves nothing; otherwise the list gains the prompt and the reply, the save request (iff the lookup resolved) carries `SaveTitle(flag, input)`, the input and that same reply, and only a save that went through registers the chat (iff the flag was false) and sets the flag |
| ChatWindow.RunSends | src/components/chatWindow.tsx:169-253 | a run of sends yields one save slot per send and at most one registration, and none once the chat is created, which it then stays |
| ChatWindow.CreatedFlagSticks | src/components/chatWindow.tsx:228-249 | the flag ends true exactly when it started true or some save of the run went through; a rejected lookup or save leaves it as it was |
| ChatWindow.TitleUntilFirstSave | src/components/chatWindow.tsx:228-249 | the save request of send i carries a title exactly when the chat had not been created and no earlier send's save went through: every save up to and including the first successful one has a title |
| ChatWindow.SavesPerSend | src/components/chatWindow.tsx:169-242 | each send has a save request exactly when its input is not blank and the user lookup resolved, carrying its input and its reply |
| ChatWindow.RegisteredAtMostOnce | src/components/chatWindow.tsx:228-249 | a run registers the chat once when the flag started false and some save went through, and otherwise never |
| ChatWindow.RegisteredWithFirstSave | src/components/chatWindow.tsx:228-249 | the registration's title is the first 30 code units of the input of the first send whose save went through |
| ChatWindow.RunTranscript | src/components/chatWindow.tsx:169-205 | sequential sends append exactly each non-blank prompt followed by its reply, whatever happens to the saves |
| ChatWindow.SendsOnlyAppend | src/components/chatWindow.tsx:176-205 | uninterrupted sends only ever extend the list |
| ChatWindow.HistoryMergeAfterOptimisticSend | src/components/chatWindow.tsx:115-139 | fetched `[{userPrompt: p}, {botResponse: q}]` merged after an optimistic `{user, p}` gives `{user, p}, {bot, q}`, with no duplicate prompt |
| ChatWindow.HistoryMergeScenario | src/components/chatWindow.tsx:115-139 | the same for "hi" and "hello!" |
| ChatRegistry.EnsureChatExists | src/app/context/chatContext.tsx:28-36 | afterwards the id is present; the old list is a prefix; the list is unchanged iff the id was present, otherwise `{id, messages: []}` is appended |
| ChatRegistry.EnsureChatExistsIdempotentAndUnique | src/app/context/chatContext.tsx:28-36 | a second call changes nothing and unique ids stay unique |
| ChatRegistry.MapMatching | src/app/context/chatContext.tsx:48-59 | `prev.map`: count, order and ids are kept, non-matching chats are untouched, matching chats get the update |
| ChatRegistry.AppendPlaceholder | src/app/context/chatContext.tsx:47-59 | matching chats get `{user, input}` and the loading placeholder; count, order, ids and all other chats are unchanged |
| ChatRegistry.ResolvePlaceholder | src/app/context/chatContext.tsx:83-94 | in matching chats the last message is resolved to the reply; all other chats are untouched |
| ChatRegistry.SendMessage | src/app/context/chatContext.tsx:42-44 | whitespace-only input changes nothing |
| ChatRegistry.SendMessageEffect | src/app/context/chatContext.tsx:42-103 | matching chats gain exactly the prompt and the never-empty reply, no other chat changes, and nothing changes when no chat has the id |
| ChatRegistry.SendToEnsuredChat | src/app/context/chatContext.tsx:28-103 | with unique ids, a send to an ensured chat changes exactly that one chat |
| GuestChat.Send | src/components/guest/Guest.tsx:27-54 | whitespace-only text changes nothing; otherwise the list gains the prompt and the reply, which is the guest warning on failure |
| GuestChat.RevealTargetsReply | src/components/guest/Guest.tsx:52-69 | the guest reveal animates the placeholder's slot right after the prompt, and the resolved list already holds the full reply there |
| PasswordPolicy.Test | src/app/log-in-or-create-account/create/page.tsx:50-53 | the regular-expression test succeeds iff some code unit lies in the class |
| PasswordPolicy.Validate | src/app/log-in-or-create-account/create/page.tsx:48-54 | length holds iff there are at least 8 code units; uppercase, lowercase and number hold iff some unit is in `A-Z`, `a-z`, `0-9`; special holds iff some unit is one of `!@#$%^&*(),.?":{}|<>` |
| PasswordPolicy.SubmitDisabled | src/app/log-in-or-create-account/create/page.tsx:136-142 | the button is disabled exactly when the validations are not all true |
| PasswordPolicy.SubmitEnabledIffAllRules | src/app/log-in-or-create-account/create/page.tsx:136-142 | the button is enabled iff all five rules hold |
| PasswordPolicy.ValidationsMonotone | src/app/log-in-or-create-account/create/page.tsx:48-54 | appending characters never turns a satisfied rule false, so an enabled button stays enabled |
| PasswordPolicy.AcceptedExample | src/app/log-in-or-create-account/create/page.tsx:136-142 | "Abcdef1!" enables submit |
| PasswordPolicy.TooShortExample | src/app/log-in-or-create-account/create/page.tsx:49 | "Abcde1!" fails the length rule and meets the other four, so submit stays disabled |
| PasswordPolicy.LengthCountsCodeUnits | src/app/log-in-or-create-account/create/page.tsx:49 | four emoji are eight code units and meet the length rule |

The guest page's placeholder append, resolution and reveal
(`src/components/guest/Guest.tsx:28-34, 52-69`) are the same code as the chat
window's. `MessageStore.AppendExchange`, `MessageStore.ResolveLast` and
`TypingReveal.RunReveal` model them. Its reply text is `Completion.BotResponse`
with the guest caller.

## Findings

| source | as written | input that shows it | evidently intended | confidence | as-written member | corrected member |
|---|---|---|---|---|---|---|
| src/components/chatWindow.tsx:200-205 (same code at src/components/guest/Guest.tsx:52-54 and src/app/context/chatContext.tsx:83-94) | the reply replaces whatever element is last when it arrives (`prev.slice(0, -1)`) | send "a", then send "b" before the reply to "a" arrives; the replies ra and rb arrive in order. After both resolutions the list is `{user a}, {bot "", loading}, {user b}, {bot rb}`, and both reveals then write their reply into slot 3, so the reply of the reveal that ends last is kept and the other is lost; the first placeholder shows "Thinking..." forever. A history merge landing between a send and its reply drops the last merged message in the same way (`MessageStore.MergeBeforeReplyLosesMessage`) | each reply replaces its own send's placeholder, at the slot the send appended it to: `{user a}, {bot ra}, {user b}, {bot rb}` | medium, not executed | MessageStore.OverlappingSendsLoseReply | MessageStore.ResolveAt |

`TypingReveal.OverlappingRevealsPickSurvivor` adds the two reveals' final
writes to the as-written half: both land on slot 3, so which reply survives
depends on which reveal ends last. `MessageStore.MergeBeforeReplyLosesMessage`
adds the merge case: messages merged after the send move the placeholder off
the end, so the reply overwrites the last merged message.
`MessageStore.ResolveAtKeepsLaterMessages` proves that the corrected resolution
keeps them.

Lists only grow between a send and its reply, so the placeholder's slot
(`|prev| + 1`) is stable. `MessageStore.ResolveAtAgreesWhenUninterrupted` proves
that the corrected resolution equals the code's on an uninterrupted send. The
composite sends (`ChatWindow.Send`, `GuestChat.Send`,
`ChatRegistry.SendMessage`) therefore have the same result under either
resolution.

## Left out

- Network calls (completion proxy, history fetch, save, user lookup) are not modelled. Their results are inputs: `Completion.Outcome`, `WireFormat.ApiMessage` lists, the chat id. The save step's result is an input too (`ChatWindow.SaveOutcome`): a rejected user lookup issues no request, and either rejection skips the registration and the flag update.
- The completion proxy route (`src/app/api/chat/route.ts`) is not modelled. Its error bodies have no `choices`, so they reach the model as "No response".
- Completion.BotResponse: models `content` as a string or absent. A non-string JSON value in `content` (a number, an object) is not modelled.
- Cognito authentication, the auth API routes, and the login, verify and password pages' flow logic are foreign SDK calls.
- React effects are not modelled: the first-line one-shot guard (`src/components/chatWindow.tsx:144-154, 256-270`, `src/app/c/[chatId]/page.tsx:16-32`), the flag sync from the collection (`src/components/chatWindow.tsx:66-73`), the title discovery in `fetchChat` (`src/components/chatWindow.tsx:97-110`), and the `cancelled` flag. These exist for async interleaving. In the model the "chat has been created" flag is an input.
- `addChat`, `collection` and `getCurrentUserId` are not part of this model. Only the call-site guard of `addChat` and the effect of a rejected `getCurrentUserId` are stated.
- `localStorage` mirroring, `window.history.replaceState`, router pushes, `uuidv4`, timestamps and input-field clearing (`setInput("")`) are environment effects.
- Timer timing is not modelled: the reveal is a sequence of ticks. The interleaving of concurrent reveals' ticks is not modelled. Switching chats does not clear the typing state, and a chat switch is not modelled.
- ChatWindow.Send, GuestChat.Send and ChatRegistry.SendMessage run the placeholder and resolution updaters back to back. In the application other updates may run in between. The single updaters cover any interleaving, and the Findings lemmas cover overlapping sends.
- ChatWindow.RunSends orders sends one after another. Two concurrent sends can both read the flag as false before either save finishes, and then both send a title. That race is not modelled.
- TypingReveal.WriteAt: excludes a final write past the end of the list, which would make the array sparse. Lists only grow between resolution and the final tick, so it does not arise.
- Rendering is modelled only for the chat window's displayed text (`TypingReveal.DisplayedText` and `TypingReveal.RevealShowsPrefix`, `src/components/chatWindow.tsx:323-340`). The guest page renders `isLoading ? "Thinking..." : text` (`src/components/guest/Guest.tsx:138`), which is not modelled. Styling, scrolling and the sidebar, header, loading and landing pages are not.
- `src/components/user/chats.tsx` is entirely commented out.

=== FILE: chatregistry.dfy ===
/** The chat list held by the chat context: every chat with its own message
    list, `ensureChatExists`, and the two `setChats` updaters of its
    `sendMessage`, each a `map` that touches only chats with the target id. */
module ChatRegistry {
  import opened JsText
  import opened Messages
  import opened Completion
  import opened MessageStore

  datatype Chat = Chat(id: JsString, messages: seq<Message>)

  predicate HasChat(chats: seq<Chat>, id: JsString) {
    exists i | 0 <= i < |chats| :: chats[i].id == id
  }

  /** No two chats share an id. */
  predicate UniqueIds(chats: seq<Chat>) {
    forall i, j | 0 <= i < j < |chats| :: chats[i].id != chats[j].id
  }

  /** Adds an empty chat with the id at the end unless one is present; the
      existing chats are kept as they were. */
  function EnsureChatExists(chats: seq<Chat>, id: JsString): (r: seq<Chat>)
    ensures HasChat(r, id)
    ensures |chats| <= |r| <= |chats| + 1 && r[..|chats|] == chats
    ensures HasChat(chats, id) <==> |r| == |chats|
    ensures |r| == |chats| + 1 ==> r[|chats|] == Chat(id, [])
  {
    if HasChat(chats, id) then chats
    else
      var r := chats + [Chat(id, [])];
      assert r[|chats|].id == id;
      r
  }

  /** Adding an existing chat again changes nothing, and ids stay unique. */
  lemma EnsureChatExistsIdempotentAndUnique(chats: seq<Chat>, id: JsString)
    ensures EnsureChatExists(EnsureChatExists(chats, id), id) == EnsureChatExists(chats, id)
    ensures UniqueIds(chats) ==> UniqueIds(EnsureChatExists(chats, id))
  {
  }

  /** Applies `f` to the messages of every chat whose id matches, leaving the
      others as they are. */
  function MapMatching(chats: seq<Chat>, id: JsString, f: seq<Message> -> seq<Message>): (r: seq<Chat>)
    ensures |r| == |chats|
    ensures forall i | 0 <= i < |r| :: r[i].id == chats[i].id
    ensures forall i | 0 <= i < |r| && chats[i].id != id :: r[i] == chats[i]
    ensures forall i | 0 <= i < |r| && chats[i].id == id :: r[i].messages == f(chats[i].messages)
  {
    seq(|chats|, i requires 0 <= i < |chats| =>
      if chats[i].id == id then Chat(chats[i].id, f(chats[i].messages)) else chats[i])
  }

  /** First updater of `sendMessage` (reached only for non-blank input): chats
      with the id get the user message and the loading placeholder; count,
      order, ids and every other chat stay. */
  function AppendPlaceholder(chats: seq<Chat>, chatId: JsString, input: JsString): (r: seq<Chat>)
    ensures |r| == |chats|
    ensures forall i | 0 <= i < |r| :: r[i].id == chats[i].id
    ensures forall i | 0 <= i < |r| && chats[i].id != chatId :: r[i] == chats[i]
    ensures forall i | 0 <= i < |r| && chats[i].id == chatId ::
              r[i].messages == chats[i].messages + [UserMessage(input), Placeholder]
  {
    MapMatching(chats, chatId, (m: seq<Message>) => m + [UserMessage(input), Placeholder])
  }

  /** Second updater: in chats with the id the last message is replaced by the
      finished reply; every other chat stays. */
  function ResolvePlaceholder(chats: seq<Chat>, chatId: JsString, response: JsString): (r: seq<Chat>)
    ensures |r| == |chats|
    ensures forall i | 0 <= i < |r| :: r[i].id == chats[i].id
    ensures forall i | 0 <= i < |r| && chats[i].id != chatId :: r[i] == chats[i]
    ensures forall i | 0 <= i < |r| && chats[i].id == chatId ::
              r[i].messages == ResolveLast(chats[i].messages, response)
  {
    MapMatching(chats, chatId, (m: seq<Message>) => ResolveLast(m, response))
  }

  /** The whole `sendMessage` when no other update comes in between. */
  function SendMessage(chats: seq<Chat>, chatId: JsString, input: JsString, outcome: Outcome): (r: seq<Chat>)
    ensures IsBlank(input) ==> r == chats
  {
    if IsBlank(input) then chats
    else ResolvePlaceholder(AppendPlaceholder(chats, chatId, input), chatId, BotResponse(outcome, ContextSend))
  }

  /** A send adds exactly the user message and the never-empty reply to the
      chats with the id, changes no other chat, and changes nothing at all when
      no chat has the id. */
  lemma SendMessageEffect(chats: seq<Chat>, chatId: JsString, input: JsString, outcome: Outcome)
    requires !IsBlank(input)
    ensures var r := SendMessage(chats, chatId, input, outcome);
      && |r| == |chats|
      && (forall i | 0 <= i < |r| :: r[i].id == chats[i].id)
      && (forall i | 0 <= i < |r| && chats[i].id != chatId :: r[i] == chats[i])
      && (forall i | 0 <= i < |r| && chats[i].id == chatId ::
            r[i].messages == chats[i].messages
                             + [UserMessage(input), BotMessage(BotResponse(outcome, ContextSend))])
      && (!HasChat(chats, chatId) ==> r == chats)
  {
    var response := BotResponse(outcome, ContextSend);
    var placed := AppendPlaceholder(chats, chatId, input);
    var r := SendMessage(chats, chatId, input, outcome);
    forall i | 0 <= i < |r| && chats[i].id == chatId
      ensures r[i].messages == chats[i].messages + [UserMessage(input), BotMessage(response)]
    {
      SendThenResolve(chats[i].messages, input, response);
    }
    if !HasChat(chats, chatId) {
      assert forall i | 0 <= i < |r| :: r[i] == chats[i];
    }
  }

  /** With unique ids, a send to a chat that `ensureChatExists` added changes
      exactly that one chat. */
  lemma SendToEnsuredChat(chats: seq<Chat>, chatId: JsString, input: JsString, outcome: Outcome)
    requires UniqueIds(chats)
    requires !IsBlank(input)
    ensures var ensured := EnsureChatExists(chats, chatId);
      var r := SendMessage(ensured, chatId, input, outcome);
      exists k | 0 <= k < |r| ::
        && r[k].id == chatId
        && r[k].messages == ensured[k].messages
                            + [UserMessage(input), BotMessage(BotResponse(outcome, ContextSend))]
        && (forall i | 0 <= i < |r| && i != k :: r[i] == ensured[i])
  {
    var ensured := EnsureChatExists(chats, chatId);
    EnsureChatExistsIdempotentAndUnique(chats, chatId);
    SendMessageEffect(ensured, chatId, input, outcome);
    var response := BotResponse(outcome, ContextSend);
    var k :| 0 <= k < |ensured| && ensured[k].id == chatId;
    var r := SendMessage(ensured, chatId, input, outcome);
    assert r[k].messages == ensured[k].messages + [UserMessage(input), BotMessage(response)];
    forall i | 0 <= i < |r| && i != k ensures r[i] == ensured[i] {
      if i < k {
        assert ensured[i].id != ensured[k].id;
      } else {
        assert ensured[k].id != ensured[i].id;
      }
    }
  }
}

=== FILE: chatwindow.dfy ===
/** `sendMessage` of the chat window run to completion without other updates
    in between: optimistic append, reply, resolution, then the save request and
    the first-save registration guarded by the "chat has been created" flag. */
module ChatWindow {
  import opened Wrappers
  import opened JsText
  import opened Messages
  import opened Completion
  import opened MessageStore
  import WireFormat

  /** The window's message list and its "chat has been created" flag. */
  datatype WindowState = WindowState(messages: seq<Message>, created: bool)

  /** The body posted to the save endpoint (ids and timestamp left out). */
  datatype SaveRequest = SaveRequest(title: Option<JsString>, userPrompt: JsString, botResponse: JsString)

  /** The `{chatId, title}` handed to `addChat` with `checkExists`. */
  datatype CollectionEntry = CollectionEntry(chatId: JsString, title: JsString)

  /** How the save step after the reply ended. `getCurrentUserId` can reject
      before any request is made, and the `saveChat` fetch can reject on a
      network failure (an HTTP error status still resolves it). Either
      rejection ends `sendMessage` before the registration and the flag
      update. */
  datatype SaveOutcome = LookupRejected | SaveRejected | Saved

  /** One call of `sendMessage`: the input, how the completion request ended
      and how the save step ended. */
  datatype SendEvent = SendEvent(input: JsString, outcome: Outcome, saveOutcome: SaveOutcome)

  datatype SendResult = SendResult(state: WindowState, save: Option<SaveRequest>, added: Option<CollectionEntry>)

  const TitleLength: nat := 30

  /** The title put in the save request: the first 30 code units of the input
      while the chat has not been created, otherwise none. */
  function SaveTitle(created: bool, input: JsString): (t: Option<JsString>)
    ensures t.Some? <==> !created
    ensures t.Some? ==> |t.value| <= TitleLength && t.value <= input
    ensures t.Some? ==> |t.value| == if |input| < TitleLength then |input| else TitleLength
    ensures t.Some? && |input| <= TitleLength ==> t.value == input
  {
    if !created then Some(Take(input, TitleLength)) else None
  }

  /** One send. Whitespace-only input changes nothing and saves nothing.
      Otherwise the list gains the user message and the reply. Unless the user
      lookup rejected, a save request carries the title rule's title, the
      input and that same reply. Only a save that went through registers the
      chat (when the flag was false) and sets the flag. */
  function Send(chatId: JsString, s: WindowState, e: SendEvent): (r: SendResult)
    ensures IsBlank(e.input) ==> r == SendResult(s, None, None)
    ensures !IsBlank(e.input) ==>
      && r.state.messages == s.messages + [UserMessage(e.input), BotMessage(BotResponse(e.outcome, ChatWindowSend))]
      && (r.state.created <==> s.created || e.saveOutcome.Saved?)
      && (r.save.Some? <==> !e.saveOutcome.LookupRejected?)
      && (r.save.Some? ==>
            r.save.value == SaveRequest(SaveTitle(s.created, e.input), e.input, BotResponse(e.outcome, ChatWindowSend)))
      && (r.added.Some? <==> !s.created && e.saveOutcome.Saved?)
      && (r.added.Some? ==> r.added.value == CollectionEntry(chatId, Take(e.input, TitleLength)))
  {
    if IsBlank(e.input) then SendResult(s, None, None)
    else
      var response := BotResponse(e.outcome, ChatWindowSend);
      var messages := ResolveLast(AppendExchange(s.messages, e.input), response);
      SendResultAfter(chatId, s, e.input, response, messages, e.saveOutcome)
  }

  /** The tail of `Send` after the reply is in: the user lookup, the save
      request, then the guarded `addChat` and the flag update, which a
      rejection skips. */
  function SendResultAfter(chatId: JsString, s: WindowState, input: JsString,
                           response: JsString, messages: seq<Message>, saveOutcome: SaveOutcome): (r: SendResult)
    requires !IsBlank(input)
    requires messages == ResolveLast(AppendExchange(s.messages, input), response)
    ensures r.state.messages == s.messages + [UserMessage(input), BotMessage(response)]
    ensures r.state.created <==> s.created || saveOutcome.Saved?
    ensures r.save.Some? <==> !saveOutcome.LookupRejected?
    ensures r.save.Some? ==> r.save.value == SaveRequest(SaveTitle(s.created, input), input, response)
    ensures r.added.Some? <==> !s.created && saveOutcome.Saved?
    ensures r.added.Some? ==> r.added.value == CollectionEntry(chatId, Take(input, TitleLength))
  {
    SendThenResolve(s.messages, input, response);
    var save := if saveOutcome.LookupRejected? then None
                else Some(SaveRequest(SaveTitle(s.created, input), input, response));
    if !saveOutcome.Saved? then SendResult(WindowState(messages, s.created), save, None)
    else
      var added := if !s.created then Some(CollectionEntry(chatId, Take(input, TitleLength))) else None;
      SendResult(WindowState(messages, true), save, added)
  }

  /** A run of sends, one after another: the final state, the save request
      each send issued (none for a blank input or a rejected lookup), and the
      collection registrations in order. */
  function RunSends(chatId: JsString, s: WindowState, events: seq<SendEvent>)
    : (r: (WindowState, seq<Option<SaveRequest>>, seq<CollectionEntry>))
    ensures |r.1| == |events|
    ensures |r.2| <= 1
    ensures s.created ==> r.2 == [] && r.0.created
    decreases |events|
  {
    if events == [] then (s, [], [])
    else
      var step := Send(chatId, s, events[0]);
      var rest := RunSends(chatId, step.state, events[1..]);
      (rest.0,
       [step.save] + rest.1,
       (if step.added.Some? then [step.added.value] else []) + rest.2)
  }

  /** The send reached the end of its save: a non-blank input whose
      `saveChat` request resolved. */
  predicate SavedAt(e: SendEvent) {
    !IsBlank(e.input) && e.saveOutcome.Saved?
  }

  /** Some send of the run completed its save. */
  predicate AnySaved(events: seq<SendEvent>) {
    exists j | 0 <= j < |events| :: SavedAt(events[j])
  }

  lemma AnySavedCons(events: seq<SendEvent>)
    requires events != []
    ensures AnySaved(events) <==> SavedAt(events[0]) || AnySaved(events[1..])
  {
    if AnySaved(events) && !SavedAt(events[0]) {
      var j :| 0 <= j < |events| && SavedAt(events[j]);
      assert events[1..][j - 1] == events[j];
    }
    if AnySaved(events[1..]) {
      var j :| 0 <= j < |events| - 1 && SavedAt(events[1..][j]);
      assert events[j + 1] == events[1..][j];
    }
  }

  /** The same split for the first `i` sends. */
  lemma AnySavedPrefix(events: seq<SendEvent>, i: nat)
    requires 1 <= i <= |events|
    ensures AnySaved(events[..i]) <==> SavedAt(events[0]) || AnySaved(events[1..][..i - 1])
  {
    AnySavedCons(events[..i]);
    assert events[..i][1..] == events[1..][..i - 1];
  }

  /** The one step of a run: how a send moves the flag. */
  lemma SendFlag(chatId: JsString, s: WindowState, e: SendEvent)
    ensures Send(chatId, s, e).state.created <==> s.created || SavedAt(e)
    ensures Send(chatId, s, e).added.Some? <==> !s.created && SavedAt(e)
  {
  }

  /** The flag never returns to false, and it ends true exactly when it
      started true or some save of the run went through. */
  lemma {:induction false} CreatedFlagSticks(chatId: JsString, s: WindowState, events: seq<SendEvent>)
    ensures RunSends(chatId, s, events).0.created <==> s.created || AnySaved(events)
    decreases |events|
  {
    if events != [] {
      var step := Send(chatId, s, events[0]);
      SendFlag(chatId, s, events[0]);
      CreatedFlagSticks(chatId, step.state, events[1..]);
      AnySavedCons(events);
    }
  }

  /** Save slot i carries a title exactly while the chat had not been
      created before the run and no save among the first i sends went
      through. */
  ghost predicate TitlesFollowSaves(saves: seq<Option<SaveRequest>>, events: seq<SendEvent>, created: bool)
    requires |saves| == |events|
  {
    forall i | 0 <= i < |saves| && saves[i].Some? ::
      saves[i].value.title.Some? <==> (!created && !AnySaved(events[..i]))
  }

  /** The title rule for a first send put before the rest of a run. */
  lemma {:induction false} TitlesCons(first: Option<SaveRequest>, rest: seq<Option<SaveRequest>>,
                                      events: seq<SendEvent>, created: bool, createdAfter: bool)
    requires events != [] && |rest| == |events| - 1
    requires first.Some? ==> (first.value.title.Some? <==> !created)
    requires createdAfter <==> created || SavedAt(events[0])
    requires TitlesFollowSaves(rest, events[1..], createdAfter)
    ensures TitlesFollowSaves([first] + rest, events, created)
  {
    var saves := [first] + rest;
    forall i | 0 <= i < |saves| && saves[i].Some?
      ensures saves[i].value.title.Some? <==> (!created && !AnySaved(events[..i]))
    {
      if i == 0 {
        assert events[..0] == [];
      } else {
        assert saves[i] == rest[i - 1];
        AnySavedPrefix(events, i);
      }
    }
  }

  /** A save request carries a title exactly while no earlier send of the run
      has completed its save and the chat had not been created: every save up
      to and including the first successful one has a title, none after it. */
  lemma {:induction false} TitleUntilFirstSave(chatId: JsString, s: WindowState, events: seq<SendEvent>)
    ensures TitlesFollowSaves(RunSends(chatId, s, events).1, events, s.created)
    decreases |events|
  {
    if events != [] {
      var step := Send(chatId, s, events[0]);
      SendFlag(chatId, s, events[0]);
      var rest := RunSends(chatId, step.state, events[1..]).1;
      TitleUntilFirstSave(chatId, step.state, events[1..]);
      TitlesCons(step.save, rest, events, s.created, step.state.created);
      assert RunSends(chatId, s, events).1 == [step.save] + rest;
    }
  }

  /** The save request a send issues matches it: there is one exactly when
      the input is not blank and the user lookup resolved, and it carries the
      input and the send's reply. */
  predicate SaveMatches(save: Option<SaveRequest>, e: SendEvent) {
    && (save.Some? <==> !IsBlank(e.input) && !e.saveOutcome.LookupRejected?)
    && (save.Some? ==> save.value.userPrompt == e.input
                       && save.value.botResponse == BotResponse(e.outcome, ChatWindowSend))
  }

  /** One send's save request matches it. */
  lemma SendSaveMatches(chatId: JsString, s: WindowState, e: SendEvent)
    ensures SaveMatches(Send(chatId, s, e).save, e)
  {
  }

  /** Save requests and sends paired off in order, each request matching its
      send. */
  predicate AllSavesMatch(saves: seq<Option<SaveRequest>>, events: seq<SendEvent>)
    decreases |events|
  {
    && |saves| == |events|
    && (events != [] ==> SaveMatches(saves[0], events[0]) && AllSavesMatch(saves[1..], events[1..]))
  }

  /** Every send's save request matches it. */
  lemma {:induction false} SavesPerSend(chatId: JsString, s: WindowState, events: seq<SendEvent>)
    ensures AllSavesMatch(RunSends(chatId, s, events).1, events)
    decreases |events|
  {
    if events != [] {
      var step := Send(chatId, s, events[0]);
      SendSaveMatches(chatId, s, events[0]);
      var rest := RunSends(chatId, step.state, events[1..]).1;
      SavesPerSend(chatId, step.state, events[1..]);
      var saves := RunSends(chatId, s, events).1;
      assert saves == [step.save] + rest;
      assert saves[1..] == rest;
    }
  }

  /** Send `i` is the first of the run whose save went through. */
  predicate FirstSavedAt(events: seq<SendEvent>, i: int) {
    0 <= i < |events| && SavedAt(events[i]) && !AnySaved(events[..i])
  }

  /** The first successful save of `events[1..]` is the first of `events`,
      one later, when the first send did not save. */
  lemma FirstSavedShift(events: seq<SendEvent>, i: int)
    requires events != [] && !SavedAt(events[0])
    requires FirstSavedAt(events[1..], i)
    ensures FirstSavedAt(events, i + 1)
  {
    AnySavedPrefix(events, i + 1);
    assert events[i + 1] == events[1..][i];
  }

  /** The chat is registered at most once: exactly when the flag started
      false and some save went through. */
  lemma {:induction false} RegisteredAtMostOnce(chatId: JsString, s: WindowState, events: seq<SendEvent>)
    ensures |RunSends(chatId, s, events).2| == (if !s.created && AnySaved(events) then 1 else 0)
    decreases |events|
  {
    if events != [] {
      var step := Send(chatId, s, events[0]);
      SendFlag(chatId, s, events[0]);
      var rest := RunSends(chatId, step.state, events[1..]).2;
      RegisteredAtMostOnce(chatId, step.state, events[1..]);
      AnySavedCons(events);
      var added := RunSends(chatId, s, events).2;
      assert added == (if step.added.Some? then [step.added.value] else []) + rest;
    }
  }

  /** The registration's title is taken from the first send whose save went
      through. */
  lemma {:induction false} RegisteredWithFirstSave(chatId: JsString, s: WindowState, events: seq<SendEvent>)
    ensures var added := RunSends(chatId, s, events).2;
      |added| > 0 ==>
        exists i :: FirstSavedAt(events, i) && added[0] == CollectionEntry(chatId, Take(events[i].input, TitleLength))
    decreases |events|
  {
    if events != [] {
      var step := Send(chatId, s, events[0]);
      SendFlag(chatId, s, events[0]);
      var rest := RunSends(chatId, step.state, events[1..]).2;
      RegisteredWithFirstSave(chatId, step.state, events[1..]);
      var added := RunSends(chatId, s, events).2;
      if step.added.Some? {
        assert added[0] == step.added.value;
        assert events[..0] == [];
        assert FirstSavedAt(events, 0);
      } else if |added| > 0 {
        assert added == rest;
        var i :| FirstSavedAt(events[1..], i)
                 && rest[0] == CollectionEntry(chatId, Take(events[1..][i].input, TitleLength));
        FirstSavedShift(events, i);
        assert events[i + 1] == events[1..][i];
      }
    }
  }

  /** The messages one non-blank send adds: its input and its reply. */
  function Exchange(e: SendEvent): seq<Message> {
    if IsBlank(e.input) then [] else [UserMessage(e.input), BotMessage(BotResponse(e.outcome, ChatWindowSend))]
  }

  /** A run is its first send followed by the run of the rest. */
  lemma RunSendsFirst(chatId: JsString, s: WindowState, events: seq<SendEvent>)
    requires events != []
    ensures RunSends(chatId, s, events).0 == RunSends(chatId, Send(chatId, s, events[0]).state, events[1..]).0
  {
  }

  /** One send appends its exchange. */
  lemma SendAppendsExchange(chatId: JsString, s: WindowState, e: SendEvent)
    ensures Send(chatId, s, e).state.messages == s.messages + Exchange(e)
  {
  }

  /** The messages a run of sends adds, defined send by send. */
  function Transcript(events: seq<SendEvent>): seq<Message>
    decreases |events|
  {
    if events == [] then [] else Exchange(events[0]) + Transcript(events[1..])
  }

  /** Sequential sends append exactly the transcript of prompts and replies,
      whatever happens to the saves. */
  lemma {:induction false} RunTranscript(chatId: JsString, s: WindowState, events: seq<SendEvent>)
    ensures RunSends(chatId, s, events).0.messages == s.messages + Transcript(events)
    decreases |events|
  {
    if events != [] {
      var after := Send(chatId, s, events[0]).state;
      var rest := RunSends(chatId, after, events[1..]).0;
      RunSendsFirst(chatId, s, events);
      SendAppendsExchange(chatId, s, events[0]);
      RunTranscript(chatId, after, events[1..]);
      assert Transcript(events) == Exchange(events[0]) + Transcript(events[1..]);
      assert rest.messages == s.messages + Exchange(events[0]) + Transcript(events[1..]);
      ConcatAssoc(s.messages, Exchange(events[0]), Transcript(events[1..]));
    }
  }

  /** Sends only ever append: the list before a run is a prefix of the list
      after it. */
  lemma {:induction false} SendsOnlyAppend(chatId: JsString, s: WindowState, events: seq<SendEvent>)
    ensures s.messages <= RunSends(chatId, s, events).0.messages
    decreases |events|
  {
    if events != [] {
      var step := Send(chatId, s, events[0]);
      SendsOnlyAppend(chatId, step.state, events[1..]);
      assert s.messages <= step.state.messages;
    }
  }

  /** Fetched history `[{userPrompt: p}, {botResponse: q}]` merged into a list
      that already holds the optimistic `{user, p}` gives `{user, p}, {bot, q}`:
      no duplicate prompt. */
  lemma {:induction false} HistoryMergeAfterOptimisticSend(p: JsString, q: JsString)
    requires p != [] && q != []
    ensures
      var history := [WireFormat.ApiMessage(Some(p), None), WireFormat.ApiMessage(None, Some(q))];
      MergeRemote([UserMessage(p)], WireFormat.ToMessages(history)) == [UserMessage(p), BotMessage(q)]
  {
    PromptThenReplyHistory(p, q);
    MergeAnsweredPrompt(p, q);
  }

  /** The two-entry history formats to the prompt followed by the reply. */
  lemma PromptThenReplyHistory(p: JsString, q: JsString)
    requires p != [] && q != []
    ensures
      var history := [WireFormat.ApiMessage(Some(p), None), WireFormat.ApiMessage(None, Some(q))];
      WireFormat.ToMessages(history) == [UserMessage(p), BotMessage(q)]
  {
    var history := [WireFormat.ApiMessage(Some(p), None), WireFormat.ApiMessage(None, Some(q))];
    WireFormat.ToMessagesSnoc([history[0]], history[1]);
    WireFormat.ToMessagesSnoc([], history[0]);
    assert [history[0]] + [history[1]] == history;
  }

  /** Merging the prompt and its reply into a list holding only the prompt
      adds the reply alone. */
  lemma MergeAnsweredPrompt(p: JsString, q: JsString)
    ensures MergeRemote([UserMessage(p)], [UserMessage(p), BotMessage(q)]) == [UserMessage(p), BotMessage(q)]
  {
    var formatted := [UserMessage(p), BotMessage(q)];
    var prev := [UserMessage(p)];
    assert SameEntry(prev[0], UserMessage(p));
    assert !HasEntry(prev, BotMessage(q));
    assert formatted[1..] == [BotMessage(q)];
    assert MergeFrom(prev, formatted) == MergeFrom(prev, [BotMessage(q)]);
    assert MergeFrom(prev, [BotMessage(q)]) == MergeFrom(prev + [BotMessage(q)], []);
  }

  /** The same with the prompt "hi" and the reply "hello!". */
  lemma HistoryMergeScenario()
    ensures
      var hi := FromBmp("hi");
      var hello := FromBmp("hello!");
      var history := [WireFormat.ApiMessage(Some(hi), None), WireFormat.ApiMessage(None, Some(hello))];
      MergeRemote([UserMessage(hi)], WireFormat.ToMessages(history)) == [UserMessage(hi), BotMessage(hello)]
  {
    HistoryMergeAfterOptimisticSend(FromBmp("hi"), FromBmp("hello!"));
  }
}

=== FILE: completion.dfy ===
/** The reply text a send obtains from the completion proxy. The request itself
    is not modelled: its result is an input, either a thrown failure (network
    error, body that is not JSON) or the parsed JSON body. */
module Completion {
  import opened Wrappers
  import opened JsText

  datatype ChoiceMessage = ChoiceMessage(content: Option<JsString>)
  datatype Choice = Choice(message: Option<ChoiceMessage>)

  /** The parsed body; an error body of the proxy (`{error: ...}`) has no
      `choices`. */
  datatype CompletionBody = CompletionBody(choices: Option<seq<Choice>>)

  datatype Outcome = Failed | Received(body: CompletionBody)

  /** The three call sites, which differ only in their failure text. */
  datatype Caller = ChatWindowSend | ContextSend | GuestSend

  const NoResponseText: JsString := FromBmp("No response")

  /** Failure text of the chat window and of the chat context. */
  const FetchErrorText: JsString := FromBmp("Error: failed to fetch response")

  /** Failure text of the guest page, which starts with a warning sign. */
  const GuestErrorText: JsString := FromBmp("\U{26A0}\U{FE0F} Error: could not reach Astra AI")

  function FailureText(caller: Caller): (r: JsString)
    ensures r != []
    ensures r == if caller.GuestSend? then GuestErrorText else FetchErrorText
  {
    match caller
    case GuestSend => GuestErrorText
    case _ => FetchErrorText
  }

  /** `data.choices?.[0]?.message?.content`: undefined as soon as one link of
      the chain is missing. */
  function FirstContent(body: CompletionBody): (r: Option<JsString>)
    ensures r.Some? <==>
      && body.choices.Some? && |body.choices.value| > 0
      && body.choices.value[0].message.Some?
      && body.choices.value[0].message.value.content.Some?
    ensures r.Some? ==> r == body.choices.value[0].message.value.content
  {
    if body.choices.None? || |body.choices.value| == 0 then None
    else
      var choice := body.choices.value[0];
      if choice.message.None? then None else choice.message.value.content
  }

  /** `x || "No response"` on an optional string: a present, non-empty string
      is truthy. */
  predicate Truthy(s: Option<JsString>) {
    s.Some? && s.value != []
  }

  /** The bot reply a send goes on with: the first choice's content when it is
      a non-empty string, "No response" when it is missing or empty, and the
      caller's failure text when the request threw. It is never empty. */
  function BotResponse(outcome: Outcome, caller: Caller): (r: JsString)
    ensures r != []
    ensures outcome.Failed? ==> r == FailureText(caller)
    ensures outcome.Received? && Truthy(FirstContent(outcome.body)) ==>
              r == FirstContent(outcome.body).value
    ensures outcome.Received? && !Truthy(FirstContent(outcome.body)) ==> r == NoResponseText
    ensures outcome.Received? && outcome.body.choices.None? ==> r == NoResponseText
  {
    if outcome.Failed? then FailureText(caller)
    else
      var content := FirstContent(outcome.body);
      if Truthy(content) then content.value
      else NoResponseText
  }
}

=== FILE: guestchat.dfy ===
/** The guest page's `sendMessage`: the same optimistic append, resolution
    and typing reveal as the chat window, with its own failure text and no
    saving. */
module GuestChat {
  import opened JsText
  import opened Messages
  import opened Completion
  import opened MessageStore
  import opened TypingReveal

  /** One guest send run without other updates in between: nothing for
      whitespace-only text, otherwise the user message followed by the reply,
      which is the guest warning when the request failed. */
  function Send(messages: seq<Message>, text: JsString, outcome: Outcome): (r: seq<Message>)
    ensures IsBlank(text) ==> r == messages
    ensures !IsBlank(text) ==>
              r == messages + [UserMessage(text), BotMessage(BotResponse(outcome, GuestSend))]
    ensures !IsBlank(text) && outcome.Failed? ==> r[|r| - 1].content == GuestErrorText
  {
    if IsBlank(text) then messages
    else
      var response := BotResponse(outcome, GuestSend);
      SendThenResolve(messages, text, response);
      ResolveLast(AppendExchange(messages, text), response)
  }

  /** The slot the reveal animates is the placeholder's slot, right after the
      user message, and the resolved list already holds the full reply there. */
  lemma RevealTargetsReply(messages: seq<Message>, text: JsString, response: JsString)
    requires !IsBlank(text)
    ensures var placed := AppendExchange(messages, text);
      && RevealSlot(placed) == |messages| + 1
      && ResolveLast(placed, response)[RevealSlot(placed)] == BotMessage(response)
      && placed[RevealSlot(placed)] == Placeholder
  {
  }
}

=== FILE: jstext.dfy ===
/** JavaScript strings as the engine stores them: sequences of UTF-16 code
    units. `length`, `slice`, `trim`, `===` and regular expressions without the
    `u` flag all work on code units, so the model works on code units too. */
module JsText {

  /** One UTF-16 code unit. */
  type CodeUnit = x: int | 0 <= x < 0x1_0000

  type JsString = seq<CodeUnit>

  /** UTF-16 encoding of one Unicode scalar value: the value itself when it
      fits in one code unit, otherwise a high/low surrogate pair. */
  function EncodeChar(c: char): (r: JsString)
    ensures 1 <= |r| <= 2
    ensures |r| == 1 <==> c as int < 0x1_0000
    ensures |r| == 1 ==> r[0] == c as int
    ensures |r| == 2 ==> 0xD800 <= r[0] < 0xDC00 <= r[1] < 0xE000
  {
    var v := c as int;
    if v < 0x1_0000 then [v]
    else [0xD800 + (v - 0x1_0000) / 0x400, 0xDC00 + (v - 0x1_0000) % 0x400]
  }

  /** The code units a JavaScript engine holds for a string literal. */
  function ToUtf16(s: string): (r: JsString)
    ensures |s| <= |r| <= 2 * |s|
    ensures (forall i | 0 <= i < |s| :: s[i] as int < 0x1_0000) ==> |r| == |s|
  {
    if s == [] then [] else EncodeChar(s[0]) + ToUtf16(s[1..])
  }

  /** The code units of a string whose characters all lie in the Basic
      Multilingual Plane, one unit per character; every literal of the
      application is of this kind. */
  function FromBmp(s: string): (r: JsString)
    requires forall i | 0 <= i < |s| :: s[i] as int < 0x1_0000
    ensures |r| == |s|
    ensures forall i | 0 <= i < |s| :: r[i] == s[i] as int
  {
    seq(|s|, i requires 0 <= i < |s| => s[i] as int)
  }

  /** For such strings the one-unit-per-character reading is the UTF-16
      encoding. */
  lemma {:induction false} FromBmpIsUtf16(s: string)
    requires forall i | 0 <= i < |s| :: s[i] as int < 0x1_0000
    ensures FromBmp(s) == ToUtf16(s)
  {
    if s != [] {
      FromBmpIsUtf16(s[1..]);
      assert FromBmp(s) == [s[0] as int] + FromBmp(s[1..]);
    }
  }

  /** WhiteSpace and LineTerminator code units of ECMAScript, the set that
      `String.prototype.trim` removes. */
  predicate IsWhitespace(c: CodeUnit) {
    || c == 0x09 || c == 0x0A || c == 0x0B || c == 0x0C || c == 0x0D
    || c == 0x20 || c == 0xA0 || c == 0x1680
    || (0x2000 <= c <= 0x200A)
    || c == 0x2028 || c == 0x2029 || c == 0x202F || c == 0x205F
    || c == 0x3000 || c == 0xFEFF
  }

  /** Drops the leading whitespace: the result is the longest suffix of `s`
      that does not start with whitespace. */
  function TrimStart(s: JsString): (r: JsString)
    ensures |r| <= |s| && r == s[|s| - |r|..]
    ensures r == [] || !IsWhitespace(r[0])
    ensures forall i | 0 <= i < |s| - |r| :: IsWhitespace(s[i])
  {
    if s != [] && IsWhitespace(s[0]) then TrimStart(s[1..]) else s
  }

  /** Drops the trailing whitespace: the result is the longest prefix of `s`
      that does not end with whitespace. */
  function TrimEnd(s: JsString): (r: JsString)
    ensures |r| <= |s| && r == s[..|r|]
    ensures r == [] || !IsWhitespace(r[|r| - 1])
    ensures forall i | |r| <= i < |s| :: IsWhitespace(s[i])
  {
    if s != [] && IsWhitespace(s[|s| - 1]) then TrimEnd(s[..|s| - 1]) else s
  }

  /** `s.trim()`. */
  function Trim(s: JsString): JsString {
    TrimEnd(TrimStart(s))
  }

  /** `!s.trim()`: the trimmed string is empty and therefore falsy. */
  predicate IsBlank(s: JsString) {
    Trim(s) == []
  }

  /** A string is blank exactly when every code unit of it is whitespace; in
      particular the empty string is blank. */
  lemma BlankIffAllWhitespace(s: JsString)
    ensures IsBlank(s) <==> forall i | 0 <= i < |s| :: IsWhitespace(s[i])
  {
  }

  /** `s.slice(0, n)` for a non-negative `n`. */
  function Take(s: JsString, n: nat): (r: JsString)
    ensures |r| == if n < |s| then n else |s|
    ensures r <= s
  {
    if n < |s| then s[..n] else s
  }
}

=== FILE: messages.dfy ===
/** The `Message` record shared by the chat window, the guest page and the
    chat context, and the `(role, content)` key the merge deduplicates on. */
module Messages {
  import opened JsText

  datatype Role = User | Bot

  /** `isLoading` is an optional property in the application; an absent flag
      reads as `false`. */
  datatype Message = Message(role: Role, content: JsString, isLoading: bool)

  function UserMessage(text: JsString): Message {
    Message(User, text, false)
  }

  /** A finished bot reply: no loading flag. */
  function BotMessage(text: JsString): Message {
    Message(Bot, text, false)
  }

  /** The bot stub appended while a reply is in flight. */
  const Placeholder: Message := Message(Bot, [], true)

  /** `m.role === msg.role && m.content === msg.content`: the loading flag is
      not part of the key. */
  predicate SameEntry(a: Message, b: Message) {
    a.role == b.role && a.content == b.content
  }

  /** `list.some(m => SameEntry(m, msg))`. */
  predicate HasEntry(list: seq<Message>, msg: Message) {
    exists i | 0 <= i < |list| :: SameEntry(list[i], msg)
  }

  /** No two positions of the list carry the same `(role, content)` key. */
  predicate NoDuplicateEntries(list: seq<Message>) {
    forall i, j | 0 <= i < j < |list| :: !SameEntry(list[i], list[j])
  }
}

=== FILE: messagestore.dfy ===
/** The `setMessages` updaters of a chat's message list: merge of fetched
    history, the optimistic send and the replacement of the placeholder. The
    chat window and the guest page run the same updaters. */
module MessageStore {
  import opened JsText
  import opened Messages

  /** `a` can be obtained from `b` by deleting elements, order kept. */
  predicate IsSubsequence(a: seq<Message>, b: seq<Message>)
    decreases |b|
  {
    || a == []
    || (b != [] && ((a[0] == b[0] && IsSubsequence(a[1..], b[1..])) || IsSubsequence(a, b[1..])))
  }

  /** Every element of a subsequence of `b` is an element of `b`. */
  lemma {:induction false} SubsequenceMembers(a: seq<Message>, b: seq<Message>)
    requires IsSubsequence(a, b)
    ensures forall i | 0 <= i < |a| :: a[i] in b
    decreases |b|
  {
    if a != [] {
      if a[0] == b[0] && IsSubsequence(a[1..], b[1..]) {
        SubsequenceMembers(a[1..], b[1..]);
        forall i | 0 <= i < |a|
          ensures a[i] in b
        {
          if i > 0 {
            assert a[i] == a[1..][i - 1];
          }
        }
      } else {
        SubsequenceMembers(a, b[1..]);
      }
    }
  }

  /** The `forEach` of the merge: each incoming message is pushed onto the
      growing list unless an entry with its role and content is already in
      it, including entries pushed earlier in the same pass. */
  function MergeFrom(merged: seq<Message>, rest: seq<Message>): (r: seq<Message>)
    ensures |merged| <= |r| && r[..|merged|] == merged
    ensures IsSubsequence(r[|merged|..], rest)
    ensures forall j | 0 <= j < |rest| :: HasEntry(r, rest[j])
    ensures forall i | |merged| <= i < |r| :: !HasEntry(r[..i], r[i])
    decreases |rest|
  {
    if rest == [] then merged
    else
      var next := if HasEntry(merged, rest[0]) then merged else merged + [rest[0]];
      var r := MergeFrom(next, rest[1..]);
      assert r[..|merged|] == next[..|merged|] == merged;
      assert HasEntry(r, rest[0]) by {
        if HasEntry(merged, rest[0]) {
          var k :| 0 <= k < |merged| && SameEntry(merged[k], rest[0]);
          assert r[k] == merged[k];
        } else {
          assert r[|merged|] == next[|merged|] == rest[0];
        }
      }
      assert forall j | 1 <= j < |rest| :: HasEntry(r, rest[j]) by {
        forall j | 1 <= j < |rest| ensures HasEntry(r, rest[j]) {
          assert rest[j] == rest[1..][j - 1];
        }
      }
      assert IsSubsequence(r[|merged|..], rest) by {
        if next == merged {
          assert IsSubsequence(r[|merged|..], rest[1..]);
        } else {
          var tail := r[|merged|..];
          assert tail[0] == rest[0];
          assert tail[1..] == r[|next|..];
        }
      }
      assert !HasEntry(merged, rest[0]) ==> !HasEntry(r[..|merged|], r[|merged|]);
      r
  }

  /** The merge updater of `fetchChat`. An empty converted list gives back the
      previous list; otherwise the previous list is kept as an exact prefix and
      the appended tail is a subsequence of the converted list, each appended
      message having a key absent from everything before it. Afterwards every
      converted message's key is present. */
  function MergeRemote(prev: seq<Message>, formatted: seq<Message>): (r: seq<Message>)
    ensures formatted == [] ==> r == prev
    ensures |prev| <= |r| && r[..|prev|] == prev
    ensures IsSubsequence(r[|prev|..], formatted)
    ensures forall i | |prev| <= i < |r| :: !HasEntry(r[..i], r[i])
    ensures forall j | 0 <= j < |formatted| :: HasEntry(r, formatted[j])
  {
    if formatted == [] then prev else MergeFrom(prev, formatted)
  }

  /** The filter the merge computes, stated over the incoming list alone:
      `rest[j]` is kept exactly when its key is absent from `seen` followed by
      every earlier incoming message `rest[..j]`, whether or not those were
      kept. */
  function Fresh(seen: seq<Message>, rest: seq<Message>): (r: seq<Message>)
    ensures IsSubsequence(r, rest)
    decreases |rest|
  {
    if rest == [] then []
    else if HasEntry(seen, rest[0]) then Fresh(seen + [rest[0]], rest[1..])
    else [rest[0]] + Fresh(seen + [rest[0]], rest[1..])
  }

  /** Two lists holding the same keys. */
  ghost predicate SameKeys(a: seq<Message>, b: seq<Message>) {
    forall m: Message :: HasEntry(a, m) <==> HasEntry(b, m)
  }

  /** Appending one message keeps two lists with the same keys in step, and
      appending a message whose key is present adds no key. */
  lemma {:induction false} SameKeysAppend(merged: seq<Message>, seen: seq<Message>, m: Message)
    requires SameKeys(merged, seen)
    ensures SameKeys(merged + [m], seen + [m])
    ensures HasEntry(merged, m) ==> SameKeys(merged, seen + [m])
  {
    forall x: Message ensures HasEntry(merged + [m], x) <==> HasEntry(seen + [m], x) {
      HasEntryAppend(merged, m, x);
      HasEntryAppend(seen, m, x);
    }
    if HasEntry(merged, m) {
      forall x: Message ensures HasEntry(merged, x) <==> HasEntry(seen + [m], x) {
        HasEntryAppend(seen, m, x);
        if SameEntry(m, x) {
          var k :| 0 <= k < |merged| && SameEntry(merged[k], m);
          assert SameEntry(merged[k], x);
        }
      }
    }
  }

  /** A key is in `list + [m]` iff it is in `list` or is `m`'s key. */
  lemma HasEntryAppend(list: seq<Message>, m: Message, x: Message)
    ensures HasEntry(list + [m], x) <==> HasEntry(list, x) || SameEntry(m, x)
  {
    if HasEntry(list + [m], x) {
      var k :| 0 <= k < |list| + 1 && SameEntry((list + [m])[k], x);
      if k < |list| {
        assert SameEntry(list[k], x);
      }
    }
    if HasEntry(list, x) {
      var k :| 0 <= k < |list| && SameEntry(list[k], x);
      assert (list + [m])[k] == list[k];
    }
    if SameEntry(m, x) {
      assert (list + [m])[|list|] == m;
    }
  }

  /** Regrouping an append, stated once so that long proofs need not rederive it. */
  lemma ConcatAssoc(a: seq<Message>, b: seq<Message>, c: seq<Message>)
    ensures a + b + c == a + (b + c)
  {
  }

  /** The merge pass pushes exactly the filtered messages: started from a list
      with the keys of `seen`, it appends `Fresh(seen, rest)`. */
  lemma {:induction false} MergeFromIsFresh(merged: seq<Message>, seen: seq<Message>, rest: seq<Message>)
    requires SameKeys(merged, seen)
    ensures MergeFrom(merged, rest) == merged + Fresh(seen, rest)
    decreases |rest|
  {
    if rest != [] {
      var x := rest[0];
      SameKeysAppend(merged, seen, x);
      assert HasEntry(merged, x) <==> HasEntry(seen, x);
      if HasEntry(merged, x) {
        MergeFromIsFresh(merged, seen + [x], rest[1..]);
      } else {
        MergeFromIsFresh(merged + [x], seen + [x], rest[1..]);
        ConcatAssoc(merged, [x], Fresh(seen + [x], rest[1..]));
      }
    }
  }

  /** The merge updater appends exactly the incoming messages whose key is
      new at their turn, in incoming order: the first of two same-key
      messages survives. */
  lemma MergeRemoteIsFresh(prev: seq<Message>, formatted: seq<Message>)
    ensures MergeRemote(prev, formatted) == prev + Fresh(prev, formatted)
  {
    if formatted != [] {
      MergeFromIsFresh(prev, prev, formatted);
    }
  }

  /** The filter on a history repeating its first message keeps the first
      occurrence only. */
  lemma {:induction false} FreshRepeated(x: Message, y: Message)
    requires !SameEntry(x, y)
    ensures Fresh([], [x, y, x]) == [x, y]
  {
    assert SameEntry([x, y][0], x);
    assert Fresh([x, y], [x]) == [] by {
      assert [x][1..] == [];
    }
    assert !HasEntry([x], y) by {
      assert forall k | 0 <= k < 1 :: [x][k] == x;
    }
    assert Fresh([x], [y, x]) == [y] by {
      assert [y, x][1..] == [x];
      assert [x] + [y] == [x, y];
    }
    assert [x, y, x][1..] == [y, x];
    assert [] + [x] == [x];
  }

  /** Fetched history that repeats a message keeps its first occurrence and
      the order of arrival. */
  lemma RepeatedHistoryKeepsFirst(x: Message, y: Message)
    requires !SameEntry(x, y)
    ensures MergeRemote([], [x, y, x]) == [x, y]
  {
    MergeRemoteIsFresh([], [x, y, x]);
    FreshRepeated(x, y);
  }

  /** Merging messages whose keys are all present already changes nothing. */
  lemma {:induction false} MergeFromPresent(merged: seq<Message>, rest: seq<Message>)
    requires forall j | 0 <= j < |rest| :: HasEntry(merged, rest[j])
    ensures MergeFrom(merged, rest) == merged
    decreases |rest|
  {
    if rest != [] {
      assert HasEntry(merged, rest[0]);
      forall j | 0 <= j < |rest[1..]| ensures HasEntry(merged, rest[1..][j]) {
        assert rest[1..][j] == rest[j + 1];
      }
      MergeFromPresent(merged, rest[1..]);
    }
  }

  /** Merging the same history twice adds nothing the first merge did not. */
  lemma MergeRemoteIdempotent(prev: seq<Message>, formatted: seq<Message>)
    ensures MergeRemote(MergeRemote(prev, formatted), formatted) == MergeRemote(prev, formatted)
  {
    if formatted != [] {
      MergeFromPresent(MergeRemote(prev, formatted), formatted);
    }
  }

  /** A merge never introduces a duplicate key: a list without duplicates stays
      without duplicates, and every appended message is new to the previous
      list. */
  lemma MergeRemoteNoDuplicates(prev: seq<Message>, formatted: seq<Message>)
    requires NoDuplicateEntries(prev)
    ensures NoDuplicateEntries(MergeRemote(prev, formatted))
    ensures forall i | |prev| <= i < |MergeRemote(prev, formatted)| ::
              !HasEntry(prev, MergeRemote(prev, formatted)[i])
  {
    var r := MergeRemote(prev, formatted);
    forall i, j | 0 <= i < j < |r| ensures !SameEntry(r[i], r[j]) {
      if j >= |prev| {
        assert r[..j][i] == r[i];
      } else {
        assert r[i] == prev[i] && r[j] == prev[j];
      }
    }
  }

  /** Every appended message comes from the converted list. */
  lemma MergeRemoteTailFromFormatted(prev: seq<Message>, formatted: seq<Message>)
    ensures forall i | |prev| <= i < |MergeRemote(prev, formatted)| ::
              MergeRemote(prev, formatted)[i] in formatted
  {
    var r := MergeRemote(prev, formatted);
    SubsequenceMembers(r[|prev|..], formatted);
    forall i | |prev| <= i < |r| ensures r[i] in formatted {
      assert r[i] == r[|prev|..][i - |prev|];
    }
  }

  /** The optimistic part of a send: nothing for whitespace-only input,
      otherwise the user message and then a loading bot placeholder. */
  function AppendExchange(prev: seq<Message>, input: JsString): (r: seq<Message>)
    ensures IsBlank(input) ==> r == prev
    ensures !IsBlank(input) ==> |r| == |prev| + 2 && r[..|prev|] == prev
    ensures !IsBlank(input) ==> r[|prev|] == UserMessage(input) && r[|prev| + 1] == Placeholder
  {
    if IsBlank(input) then prev else prev + [UserMessage(input), Placeholder]
  }

  /** `prev.slice(0, -1)`: everything but the last element; empty for an
      empty list. */
  function DropLast(prev: seq<Message>): (r: seq<Message>)
    ensures |r| == if prev == [] then 0 else |prev| - 1
    ensures r <= prev
  {
    if prev == [] then [] else prev[..|prev| - 1]
  }

  /** Replaces the last element, expected to be the placeholder, with the
      finished bot reply. On a non-empty list the length and every earlier
      element are kept; on an empty list the reply becomes the only element. */
  function ResolveLast(prev: seq<Message>, response: JsString): (r: seq<Message>)
    ensures |r| == if prev == [] then 1 else |prev|
    ensures r[|r| - 1] == BotMessage(response) && !r[|r| - 1].isLoading
    ensures forall i | 0 <= i < |r| - 1 :: r[i] == prev[i]
  {
    DropLast(prev) + [BotMessage(response)]
  }

  /** Resolving again overrides the previous resolution: the last reply wins,
      and resolving twice with the same reply is resolving once. */
  lemma ResolveLastOverrides(prev: seq<Message>, first: JsString, second: JsString)
    ensures ResolveLast(ResolveLast(prev, first), second) == ResolveLast(prev, second)
  {
    var once := ResolveLast(prev, first);
    assert DropLast(once) == DropLast(prev);
  }

  /** An uninterrupted exchange: the placeholder appended by the send is the
      element the resolution replaces, so the list grows by exactly the user
      message and the finished reply. */
  lemma SendThenResolve(prev: seq<Message>, input: JsString, response: JsString)
    requires !IsBlank(input)
    ensures ResolveLast(AppendExchange(prev, input), response)
            == prev + [UserMessage(input), BotMessage(response)]
  {
    var asked := prev + [UserMessage(input)];
    assert AppendExchange(prev, input) == asked + [Placeholder];
    assert DropLast(asked + [Placeholder]) == asked;
    assert asked + [BotMessage(response)] == prev + [UserMessage(input), BotMessage(response)];
  }

  /** As written, the resolution replaces whatever is last when the reply
      arrives. When a second send starts before the first reply is in (the
      list `TwoSends` builds), the first reply overwrites the second placeholder, the second reply then
      overwrites the first reply, and the first placeholder stays loading. */
  lemma OverlappingSendsLoseReply(a: JsString, b: JsString, ra: JsString, rb: JsString)
    ensures var both := [UserMessage(a), Placeholder, UserMessage(b), Placeholder];
      ResolveLast(ResolveLast(both, ra), rb) == [UserMessage(a), Placeholder, UserMessage(b), BotMessage(rb)]
  {
    var front := [UserMessage(a), Placeholder, UserMessage(b)];
    assert DropLast(front + [Placeholder]) == front;
    assert DropLast(front + [BotMessage(ra)]) == front;
  }

  /** As written, messages merged between a send and its reply take the
      placeholder's place as "last": the reply overwrites the last merged
      message and the placeholder stays loading. */
  lemma MergeBeforeReplyLosesMessage(prev: seq<Message>, input: JsString, later: seq<Message>, response: JsString)
    requires !IsBlank(input) && later != []
    ensures ResolveLast(AppendExchange(prev, input) + later, response)
            == prev + [UserMessage(input), Placeholder] + later[..|later| - 1] + [BotMessage(response)]
  {
    var sent := AppendExchange(prev, input);
    assert DropLast(sent + later) == sent + later[..|later| - 1];
  }

  /** Two sends one after the other, before any reply. */
  lemma TwoSends(a: JsString, b: JsString) returns (both: seq<Message>)
    requires !IsBlank(a) && !IsBlank(b)
    ensures both == AppendExchange(AppendExchange([], a), b)
    ensures both == [UserMessage(a), Placeholder, UserMessage(b), Placeholder]
  {
    var one := AppendExchange([], a);
    assert one == [UserMessage(a), Placeholder];
    both := AppendExchange(one, b);
    assert both == one + [UserMessage(b), Placeholder];
  }

  /** The corrected resolution: each reply replaces its own send's
      placeholder, at the slot that send appended it to. Lists only grow,
      so the slot still holds that placeholder when the reply arrives. */
  function ResolveAt(list: seq<Message>, slot: nat, response: JsString): (r: seq<Message>)
    requires slot < |list|
    ensures |r| == |list|
    ensures r[slot] == BotMessage(response)
    ensures forall i | 0 <= i < |list| && i != slot :: r[i] == list[i]
  {
    list[slot := BotMessage(response)]
  }

  /** Without anything in between, resolving the own slot is what the code
      does: the placeholder is the last element. */
  lemma ResolveAtAgreesWhenUninterrupted(prev: seq<Message>, input: JsString, response: JsString)
    requires !IsBlank(input)
    ensures ResolveAt(AppendExchange(prev, input), |prev| + 1, response)
            == ResolveLast(AppendExchange(prev, input), response)
  {
  }

  /** With the slot-based resolution two overlapping sends (the list
      `TwoSends` builds) end as prompt, reply, prompt, reply, in whichever
      order the replies come. */
  lemma OverlappingSendsResolved(a: JsString, b: JsString, ra: JsString, rb: JsString)
    ensures var both := [UserMessage(a), Placeholder, UserMessage(b), Placeholder];
      var want := [UserMessage(a), BotMessage(ra), UserMessage(b), BotMessage(rb)];
      && ResolveAt(ResolveAt(both, 1, ra), 3, rb) == want
      && ResolveAt(ResolveAt(both, 3, rb), 1, ra) == want
  {
  }

  /** Slot-based resolution keeps everything appended after the send, so a
      merge racing a send loses nothing and leaves no placeholder behind. */
  lemma ResolveAtKeepsLaterMessages(prev: seq<Message>, input: JsString, later: seq<Message>, response: JsString)
    requires !IsBlank(input)
    ensures ResolveAt(AppendExchange(prev, input) + later, |prev| + 1, response)
            == prev + [UserMessage(input), BotMessage(response)] + later
  {
  }
}

=== FILE: passwordpolicy.dfy ===
/** The password rules of the create-account page and the enabling of its
    submit button. `password.length` counts UTF-16 code units and the regular
    expressions have no `u` flag, so every rule reads code units. */
module PasswordPolicy {
  import opened JsText

  /** The character classes of the four regular expressions. */
  datatype CharClass = Upper | Lower | Digit | Special

  /** `[A-Z]`, `[a-z]`, `\d` (ASCII digits only without the `u` flag) and
      `[!@#$%^&*(),.?":{}|<>]`, whose members are all literal inside a class. */
  predicate InClass(c: CodeUnit, k: CharClass) {
    match k
    case Upper => 'A' as int <= c <= 'Z' as int
    case Lower => 'a' as int <= c <= 'z' as int
    case Digit => '0' as int <= c <= '9' as int
    case Special =>
      || c == '!' as int || c == '@' as int || c == '#' as int || c == '$' as int
      || c == '%' as int || c == '^' as int || c == '&' as int || c == '*' as int
      || c == '(' as int || c == ')' as int || c == ',' as int || c == '.' as int
      || c == '?' as int || c == '"' as int || c == ':' as int || c == '{' as int
      || c == '}' as int || c == '|' as int || c == '<' as int || c == '>' as int
  }

  /** `/[class]/.test(s)`: scans the string left to right and succeeds at the
      first code unit in the class. */
  function Test(k: CharClass, s: JsString): (r: bool)
    ensures r <==> exists i | 0 <= i < |s| :: InClass(s[i], k)
  {
    if s == [] then false
    else if InClass(s[0], k) then true
    else
      var found := Test(k, s[1..]);
      assert forall i | 1 <= i < |s| :: s[i] == s[1..][i - 1];
      found
  }

  /** The `validations` record. */
  datatype Validations = Validations(length: bool, uppercase: bool, lowercase: bool, number: bool, special: bool)

  const MinLength: nat := 8

  /** Each rule in terms of the password's code units. */
  function Validate(password: JsString): (v: Validations)
    ensures v.length <==> |password| >= MinLength
    ensures v.uppercase <==> exists i | 0 <= i < |password| :: 'A' as int <= password[i] <= 'Z' as int
    ensures v.lowercase <==> exists i | 0 <= i < |password| :: 'a' as int <= password[i] <= 'z' as int
    ensures v.number <==> exists i | 0 <= i < |password| :: '0' as int <= password[i] <= '9' as int
    ensures v.special <==> exists i | 0 <= i < |password| :: InClass(password[i], Special)
  {
    Validations(
      |password| >= MinLength,
      Test(Upper, password),
      Test(Lower, password),
      Test(Digit, password),
      Test(Special, password))
  }

  /** The button's `disabled` expression: some rule fails. The button is
      enabled for the all-true record only. */
  predicate SubmitDisabled(v: Validations): (d: bool)
    ensures d <==> v != Validations(true, true, true, true, true)
  {
    !v.length || !v.uppercase || !v.lowercase || !v.number || !v.special
  }

  /** Submit is enabled exactly when all five rules hold. */
  lemma SubmitEnabledIffAllRules(password: JsString)
    ensures !SubmitDisabled(Validate(password)) <==>
      && |password| >= MinLength
      && (exists i | 0 <= i < |password| :: InClass(password[i], Upper))
      && (exists i | 0 <= i < |password| :: InClass(password[i], Lower))
      && (exists i | 0 <= i < |password| :: InClass(password[i], Digit))
      && (exists i | 0 <= i < |password| :: InClass(password[i], Special))
  {
  }

  /** Typing more characters never turns a satisfied rule false, so an enabled
      button stays enabled. */
  lemma ValidationsMonotone(password: JsString, more: JsString)
    ensures var before := Validate(password);
      var after := Validate(password + more);
      && (before.length ==> after.length)
      && (before.uppercase ==> after.uppercase)
      && (before.lowercase ==> after.lowercase)
      && (before.number ==> after.number)
      && (before.special ==> after.special)
      && (!SubmitDisabled(before) ==> !SubmitDisabled(after))
  {
    var after := password + more;
    assert forall i | 0 <= i < |password| :: after[i] == password[i];
  }

  /** "Abcdef1!" passes every rule and enables submit. */
  lemma AcceptedExample()
    ensures !SubmitDisabled(Validate(FromBmp("Abcdef1!")))
  {
    var good := FromBmp("Abcdef1!");
    assert good[0] == 'A' as int && good[1] == 'b' as int;
    assert good[6] == '1' as int && good[7] == '!' as int;
    assert InClass(good[0], Upper) && InClass(good[1], Lower);
    assert InClass(good[6], Digit) && InClass(good[7], Special);
  }

  /** "Abcde1!" meets four rules but has seven code units, so submit stays
      disabled. */
  lemma TooShortExample()
    ensures Validate(FromBmp("Abcde1!")) == Validations(false, true, true, true, true)
    ensures SubmitDisabled(Validate(FromBmp("Abcde1!")))
  {
    var s := FromBmp("Abcde1!");
    assert InClass(s[0], Upper) && InClass(s[1], Lower);
    assert InClass(s[5], Digit) && InClass(s[6], Special);
  }

  /** Length counts code units: four characters outside the Basic Multilingual
      Plane already meet the eight-unit minimum. */
  lemma LengthCountsCodeUnits()
    ensures |ToUtf16("\U{1F600}\U{1F600}\U{1F600}\U{1F600}")| == MinLength
    ensures Validate(ToUtf16("\U{1F600}\U{1F600}\U{1F600}\U{1F600}")).length
  {
    var s := "\U{1F600}\U{1F600}\U{1F600}\U{1F600}";
    assert s[1..][1..][1..][1..] == [];
  }
}

=== FILE: typingreveal.dfy ===
/** The typing effect started when a reply is resolved: an interval callback
    whose counter `i` grows by one per tick. While `i` is at most the reply's
    length it publishes the first `i` code units as the typing state of slot
    `botIndex`; on the next tick it clears the typing state and writes the full
    reply into that slot. The timer itself is not modelled: a tick is a step. */
module TypingReveal {
  import opened Wrappers
  import opened JsText
  import opened Messages
  import MessageStore

  /** `{ index, text }`: the slot being revealed and the part shown so far. */
  datatype TypingState = TypingState(index: int, text: JsString)

  /** What one run of the interval callback does. */
  datatype TickEffect = Publish(state: TypingState) | Finish

  /** The rendered view: the message list and the optional typing state. */
  datatype Presentation = Presentation(messages: seq<Message>, typing: Option<TypingState>)

  /** `prev.length - 1` taken inside the resolving updater: the slot of the
      placeholder the reply replaces, `-1` when the list was empty. */
  function RevealSlot(prev: seq<Message>): (r: int)
    ensures -1 <= r < |prev|
    ensures r < 0 <==> prev == []
  {
    |prev| - 1
  }

  /** The callback's effect once its counter has been incremented to `i`. */
  function TickEffectAt(botIndex: int, response: JsString, i: nat): (e: TickEffect)
    requires 1 <= i
    ensures e.Publish? <==> i <= |response|
    ensures e.Publish? ==> e.state.index == botIndex && |e.state.text| == i
    ensures e.Publish? ==> e.state.text <= response
  {
    if i <= |response| then Publish(TypingState(botIndex, response[..i])) else Finish
  }

  /** `finalUpdated[botIndex] = m` on a copy of the list. A negative index
      sets a property that is not an array element, so the elements are kept;
      an index past the end would make the array sparse and is excluded. */
  function WriteAt(list: seq<Message>, index: int, m: Message): (r: seq<Message>)
    requires index < |list|
    ensures |r| == |list|
    ensures 0 <= index ==> r[index] == m
    ensures forall i | 0 <= i < |list| && i != index :: r[i] == list[i]
  {
    if index < 0 then list else list[index := m]
  }

  /** Runs the interval callback until it stops. It publishes exactly one
      typing state per code unit of the reply, the k-th showing the first k
      code units at slot `botIndex`, then clears the typing state and writes the
      reply at that slot of the list it then finds, `finalPrev`. */
  method RunReveal(botIndex: int, response: JsString, finalPrev: seq<Message>)
      returns (published: seq<TypingState>, final: Presentation)
    requires botIndex < |finalPrev|
    ensures |published| == |response|
    ensures forall k | 0 <= k < |published| :: published[k] == TypingState(botIndex, response[..k + 1])
    ensures final.typing == None
    ensures |final.messages| == |finalPrev|
    ensures 0 <= botIndex ==> final.messages[botIndex] == BotMessage(response)
    ensures forall k | 0 <= k < |finalPrev| && k != botIndex :: final.messages[k] == finalPrev[k]
  {
    var i := 0;
    var typing: Option<TypingState> := None;
    var stopped := false;
    published := [];
    while !stopped
      invariant 0 <= i <= |response| + 1
      invariant stopped <==> i == |response| + 1
      invariant |published| == if stopped then |response| else i
      invariant forall k | 0 <= k < |published| :: published[k] == TypingState(botIndex, response[..k + 1])
      invariant stopped ==> typing == None
      decreases |response| + 1 - i
    {
      i := i + 1;
      match TickEffectAt(botIndex, response, i)
      case Publish(state) =>
        typing := Some(state);
        published := published + [state];
      case Finish =>
        typing := None;
        stopped := true;
    }
    final := Presentation(WriteAt(finalPrev, botIndex, BotMessage(response)), typing);
  }

  const ThinkingText: JsString := FromBmp("Thinking...")

  /** The text rendered for message `idx`: the typing state's text when it
      targets that slot, else the stored content; an empty text shows
      "Thinking..." for a loading message. */
  function DisplayedText(p: Presentation, idx: nat): (r: JsString)
    requires idx < |p.messages|
    ensures p.typing.Some? && p.typing.value.index == idx && p.typing.value.text != [] ==>
              r == p.typing.value.text
    ensures (p.typing.None? || p.typing.value.index != idx) && p.messages[idx].content != [] ==>
              r == p.messages[idx].content
    ensures r == [] ==> !p.messages[idx].isLoading
    ensures r != [] ==> r == ThinkingText || r == p.messages[idx].content
                        || (p.typing.Some? && r == p.typing.value.text)
  {
    var m := p.messages[idx];
    var text := if p.typing.Some? && p.typing.value.index == idx then p.typing.value.text else m.content;
    if text != [] then text else if m.isLoading then ThinkingText else []
  }

  /** While the k-th typing state is published the revealed slot shows exactly
      the first k code units of the reply, whatever the slot stores, and every
      other slot shows what it would show without a reveal. */
  lemma RevealShowsPrefix(messages: seq<Message>, botIndex: nat, response: JsString, k: nat)
    requires botIndex < |messages|
    requires 1 <= k <= |response|
    ensures DisplayedText(Presentation(messages, Some(TypingState(botIndex, response[..k]))), botIndex)
            == response[..k]
    ensures forall j | 0 <= j < |messages| && j != botIndex ::
              DisplayedText(Presentation(messages, Some(TypingState(botIndex, response[..k]))), j)
              == DisplayedText(Presentation(messages, None), j)
  {
  }

  /** The reveal is cosmetic on the list the resolving updater produced,
      and on that list extended by messages appended later: the final write
      stores what the slot already holds. When the list was empty the slot is
      `-1`, which no rendered row has, so the reply appears at once without a
      typing effect. */
  lemma RevealFinalWriteIsCosmetic(prev: seq<Message>, response: JsString, later: seq<Message>)
    ensures RevealSlot(prev) < |MessageStore.ResolveLast(prev, response) + later|
    ensures WriteAt(MessageStore.ResolveLast(prev, response) + later, RevealSlot(prev), BotMessage(response))
            == MessageStore.ResolveLast(prev, response) + later
  {
    var resolved := MessageStore.ResolveLast(prev, response);
    if prev != [] {
      assert (resolved + later)[|prev| - 1] == resolved[|prev| - 1];
    }
  }

  /** With two overlapping sends both resolutions take slot 3, and so do both
      reveals. Whichever reveal's final write lands last decides which reply
      the slot keeps; the other reply is lost and slot 1 stays loading in
      either order. */
  lemma OverlappingRevealsPickSurvivor(a: JsString, b: JsString, ra: JsString, rb: JsString)
    ensures var both := [UserMessage(a), Placeholder, UserMessage(b), Placeholder];
      && RevealSlot(both) == 3
      && RevealSlot(MessageStore.ResolveLast(both, ra)) == 3
    ensures var resolved := [UserMessage(a), Placeholder, UserMessage(b), BotMessage(rb)];
      && WriteAt(WriteAt(resolved, 3, BotMessage(ra)), 3, BotMessage(rb)) == resolved
      && WriteAt(WriteAt(resolved, 3, BotMessage(rb)), 3, BotMessage(ra))
         == [UserMessage(a), Placeholder, UserMessage(b), BotMessage(ra)]
  {
    var both := [UserMessage(a), Placeholder, UserMessage(b), Placeholder];
    assert |MessageStore.ResolveLast(both, ra)| == 4;
  }
}

=== FILE: wireformat.dfy ===
/** Conversion of the history endpoint's `{userPrompt?, botResponse?}` entries
    into the chat window's `Message` list (the `flatMap` in `fetchChat`). */
module WireFormat {
  import opened Wrappers
  import opened JsText
  import opened Messages
  import Completion

  datatype ApiMessage = ApiMessage(userPrompt: Option<JsString>, botResponse: Option<JsString>)

  /** Messages one entry contributes: a user message when `userPrompt` is a
      non-empty string, then a bot message when `botResponse` is. */
  function EntryMessages(e: ApiMessage): (r: seq<Message>)
    ensures |r| == (if Completion.Truthy(e.userPrompt) then 1 else 0)
                   + (if Completion.Truthy(e.botResponse) then 1 else 0)
    ensures Completion.Truthy(e.userPrompt) ==> r[0] == UserMessage(e.userPrompt.value)
    ensures Completion.Truthy(e.botResponse) ==> r[|r| - 1] == BotMessage(e.botResponse.value)
  {
    (if Completion.Truthy(e.userPrompt) then [UserMessage(e.userPrompt.value)] else [])
    + (if Completion.Truthy(e.botResponse) then [BotMessage(e.botResponse.value)] else [])
  }

  /** The converted list, in input order. At most two messages per entry, none
      with empty content and none loading. */
  function ToMessages(entries: seq<ApiMessage>): (r: seq<Message>)
    ensures |r| <= 2 * |entries|
    ensures forall i | 0 <= i < |r| :: r[i].content != [] && !r[i].isLoading
  {
    if entries == [] then [] else EntryMessages(entries[0]) + ToMessages(entries[1..])
  }

  /** Conversion distributes over concatenation, so the messages of earlier
      entries always precede those of later ones. */
  lemma {:induction false} ToMessagesAppend(a: seq<ApiMessage>, b: seq<ApiMessage>)
    ensures ToMessages(a + b) == ToMessages(a) + ToMessages(b)
    decreases |a|
  {
    if a == [] {
      assert a + b == b;
    } else {
      assert (a + b)[1..] == a[1..] + b;
      ToMessagesAppend(a[1..], b);
    }
  }

  /** Appending one entry appends exactly that entry's messages: its user
      message, then its bot message. */
  lemma ToMessagesSnoc(a: seq<ApiMessage>, e: ApiMessage)
    ensures ToMessages(a + [e]) == ToMessages(a) + EntryMessages(e)
  {
    ToMessagesAppend(a, [e]);
    assert ToMessages([e]) == EntryMessages(e) + ToMessages([]);
  }

  /** Entry `e` holds `m`'s content in the field that matches `m`'s role. */
  predicate Carries(e: ApiMessage, m: Message) {
    || (m.role == User && e.userPrompt == Some(m.content))
    || (m.role == Bot && e.botResponse == Some(m.content))
  }

  /** Every produced message is carried by some entry, non-empty and not
      loading. */
  lemma {:induction false} ToMessagesOnlyCarried(entries: seq<ApiMessage>, m: Message)
    requires m in ToMessages(entries)
    ensures !m.isLoading && m.content != []
    ensures exists i | 0 <= i < |entries| :: Carries(entries[i], m)
    decreases |entries|
  {
    assert ToMessages(entries) == EntryMessages(entries[0]) + ToMessages(entries[1..]);
    if m in EntryMessages(entries[0]) {
      assert Carries(entries[0], m);
    } else {
      ToMessagesOnlyCarried(entries[1..], m);
      var j :| 0 <= j < |entries[1..]| && Carries(entries[1..][j], m);
      assert entries[j + 1] == entries[1..][j];
    }
  }

  /** Every non-empty prompt or reply an entry carries is produced. */
  lemma {:induction false} ToMessagesAllCarried(entries: seq<ApiMessage>, m: Message, i: nat)
    requires i < |entries| && Carries(entries[i], m)
    requires !m.isLoading && m.content != []
    ensures m in ToMessages(entries)
    decreases i
  {
    if i == 0 {
      assert m in EntryMessages(entries[0]);
    } else {
      assert entries[1..][i - 1] == entries[i];
      ToMessagesAllCarried(entries[1..], m, i - 1);
    }
  }

  /** A message is produced exactly when some entry carries its content as a
      non-empty `userPrompt` (for a user message) or `botResponse` (for a bot
      message); produced messages never carry the loading flag. */
  lemma ToMessagesMembership(entries: seq<ApiMessage>, m: Message)
    ensures m in ToMessages(entries) <==>
      !m.isLoading && m.content != [] && exists i | 0 <= i < |entries| :: Carries(entries[i], m)
  {
    if m in ToMessages(entries) {
      ToMessagesOnlyCarried(entries, m);
    }
    if !m.isLoading && m.content != [] && exists i | 0 <= i < |entries| :: Carries(entries[i], m) {
      var i :| 0 <= i < |entries| && Carries(entries[i], m);
      ToMessagesAllCarried(entries, m, i);
    }
  }
}

=== FILE: wrappers.dfy ===
/** The optional value used wherever the application reads a property that may
    be `undefined`. */
module Wrappers {

  datatype Option<+T> = None | Some(value: T)
}
